=== FILE: README.md ===
# bom.py: grouping components by part number

bom.py turns the component list of a KiCad XML netlist into a bill of materials. Each `comp` element
becomes one flat dictionary:
- its reference, stripped of surrounding whitespace (`"missing"` when the attribute is absent);
- the quantity counter 1;
- its value and footprint (`"missing"` when absent);
- one entry per `field` in its optional `fields` container. A later field overwrites an earlier one
  and any built-in entry of the same name.

The component's identifier is the stripped text stored under the manufacturer-part-number field
(`--mpn`, default `"MPN"`). An empty text or exactly `"n/a"` gives the fallback `"N/A-" + ref`, and
so does a component without a `fields` container. The components are folded in document order into
a dictionary keyed by identifier:
- the first component with an identifier is stored as it is;
- every later one only increments the stored quantity and appends `", "` and its reference.

The model takes the components as already parsed and has eight modules:

- `Wrappers`: `Option` and `Result`.
- `Strings`: Python's `str.strip()` over Python's whitespace set, and the `", "` join.
- `Components`: the parsed component (`Comp`, with every optional part an `Option`) and the
  dictionary built from it (`Record`). A `Record` holds the reference, the quantity cell (the integer
  counter, or text once a field named `qtty` replaced it) and every other entry.
- `Identifiers`: the identifier rule. When every element text and field name is present, the loop can
  raise two exceptions, and both are modelled as `Error` values:
  - `AttributeError`: `.strip()` on the integer counter. This happens when the identifier field is
    `qtty` and the component has a `fields` container without a field named `qtty`;
  - `TypeError`: `+= 1` on a quantity a field replaced with text.
- `Aggregation`: the bill (`map<string, Record>`), one insertion, the fold `Aggregate`, and the loop
  `BuildBom`.
- `Grouping`: a second, declarative definition of the bill. The components are grouped by
  identifier and each group is merged: references joined in order, the group size as quantity (a
  single record keeps its own cell), and everything else from the first record. The module proves
  that the pass raises nothing exactly on the mergeable inputs, and that there it computes exactly
  this (`Grouping.FoldIsGroupThenMerge`).
- `BomProperties`, `Quantities`: the bill's properties stated over the parsed components. These cover
  key coverage, entry contents, first-wins and quantity conservation.

The `--mpn` help text (bom.py:84-85) calls the option "the KiCad field name for the manufacturer
part number". The header comment (bom.py:4-5) says parts with identical part numbers are combined.
Where the code does something those texts do not suggest, the model follows the code:
- For a component with a `fields` container, the identifier is looked up in the whole merged
  dictionary, not only among the fields. So for such a component `--mpn value` groups by the stripped
  value when no field is named `value` (`Identifiers.IdentifyByBuiltIn`). A component without a
  `fields` container always gets the fallback (bom.py:63-64).
- `--mpn qtty` raises `AttributeError` for a component exactly when it has a `fields` container and
  no field named `qtty` (`Identifiers.IdentifyShape`). A component without a `fields` container never
  looks the field up (bom.py:63-64). A field named `qtty` is used as the part number, and it also
  replaces the counter with text. A second component with the same identifier then raises
  `TypeError` at bom.py:66 (`Aggregation.Insert`).
- The `"n/a"` test is case-sensitive: `"N/A"` is a usable part number
  (`Identifiers.NotAvailableIsCaseSensitive`).
- Fallback identifiers share one name space with part numbers. A component with reference `R1` and no
  part number, and a component whose part number reads `"N/A-R1"`, are merged (`Identifiers.FallbackMeetsPartNumber`).
  Two fallbacks alone merge only when their references are equal (`Identifiers.FallbacksSeparate`).
- The fallback of a component with a `fields` container uses the reference after the fields were
  merged in, so a field named `ref` changes it.

## Model

| member | source | states |
|---|---|---|
| Strings.Strip | bom.py:42 | Python's `str.strip()`; its contract is carried by Strings.StripSpec and Strings.StripIdempotent |
| Strings.StripSpec | bom.py:60 | `strip()` returns the slice between a whitespace-only prefix and a whitespace-only suffix, and that slice neither starts nor ends with whitespace |
| Strings.StripIdempotent | bom.py:60 | stripping an already stripped text changes nothing |
| Components.PutFields | bom.py:56-59 | the loop writing every field into the record; its contract is carried by Components.PutFieldsFrame and Components.PutFieldsLastWins |
| Components.Build | bom.py:41-59 | the record built for one component; its contract is carried by Components.BuildDefaults, Components.BuildFieldWins and Components.BuildKeys |
| Components.Put | bom.py:59 | assigning a field makes that key read back the field's text and leaves every other key as it was |
| Components.PutFieldsFrame | bom.py:56-59 | writing the fields changes only the keys some field names, and each of those then holds text |
| Components.PutFieldsLastWins | bom.py:56-59 | the key of a field holds the text of the last field with that name |
| Components.BuildDefaults | bom.py:41-53 | a new record has the stripped reference (`"missing"` when absent), the value and footprint or `"missing"`, and the counter 1, each unless a field of that name overrides it; the quantity is the counter 1 exactly when no field is named `qtty` |
| Components.BuildFieldWins | bom.py:54-59 | a named field overrides whatever the record would otherwise hold under its name |
| Components.BuildKeys | bom.py:41-59 | the record has exactly the keys ref, qtty, value, footprint and one key per field name |
| Components.Get | bom.py:60-67 | reading `component[key]` or `component.get(key)`: ref and qtty read their own cells, any other key its text, and an absent key nothing; its read-back is stated by Components.Put |
| Identifiers.Fallback | bom.py:62-64 | `"N/A-"` followed by the reference; two fallbacks are equal exactly when the references are, as Identifiers.FallbacksSeparate states |
| Identifiers.Usable | bom.py:61 | a stripped part number is kept unless it is empty or exactly `"n/a"`; used by Identifiers.IdentifyByField and Identifiers.NotAvailableIsCaseSensitive |
| Identifiers.Identify | bom.py:54-64 | the identifier of one component; its contract is carried by Identifiers.IdentifyShape, Identifiers.IdentifyByField, Identifiers.IdentifyByBuiltIn and Identifiers.IdentifyWithoutField |
| Identifiers.IdentifyShape | bom.py:54-64 | a component without `fields` gets `"N/A-"` + its stripped reference; with a `fields` container, identification raises exactly when the field is `qtty` and no field replaced the counter; otherwise the identifier is a usable trimmed part number or the fallback |
| Identifiers.IdentifyByField | bom.py:60-62 | with a `fields` container, the identifier is the stripped text of the last field named after the identifier field when usable, and the fallback otherwise |
| Identifiers.IdentifyWithoutField | bom.py:60-62 | an identifier field that is neither a field of the component nor a built-in key yields the fallback |
| Identifiers.FallbacksSeparate | bom.py:61-64 | two components without a usable part number share an identifier exactly when their references are equal |
| Identifiers.IdentifyByBuiltIn | bom.py:54-62 | with a `fields` container and no field named after the identifier field, an identifier field of ref, value or footprint gives that entry's stripped text when usable, and the fallback otherwise |
| Identifiers.NotAvailableIsCaseSensitive | bom.py:60-61 | a field text whose stripped form is `"N/A"`, `"N/a"` or `"n/A"` is kept as the part number; only the lower-case `"n/a"` falls back |
| Identifiers.FallbackMeetsPartNumber | bom.py:60-64 | a fallback identifier can coincide with another component's literal part number |
| Aggregation.Insert | bom.py:65-69 | a new identifier stores the record; a known one raises exactly when its quantity is text, and otherwise increments the quantity, appends `", "` and the reference, and keeps everything else; no other entry changes |
| Aggregation.Step | bom.py:60-69 | one iteration of the loop; its contract is carried by Aggregation.StepFrame, Aggregation.StepGrows and Quantities.StepAddsOne |
| Aggregation.StepFrame | bom.py:65-69 | one component raises exactly when it has no identifier or its entry's quantity is text; otherwise it adds at most its own key and changes no other entry |
| Aggregation.StepGrows | bom.py:65-69 | a successful step keeps every key and adds at most one, the component's identifier |
| Aggregation.Aggregate | bom.py:40-69 | the bill has at most as many entries as there are components |
| Aggregation.FailurePersists | bom.py:40-69 | once a prefix raises, the whole pass raises the same error |
| Aggregation.BuildBom | bom.py:30-69 | the loop computes the fold with the configured field, or `"MPN"` when none is configured |
| Grouping.AggregateIsFold | bom.py:40-69 | identifying and building each component as the loop meets it equals doing so up front |
| Grouping.KeySetMembers | bom.py:65-69 | an identifier is a key exactly when some component carries it |
| Grouping.KeySetCovers | bom.py:65-69 | on a mergeable input, every component's identifier is a key of the group-then-merge bill and every key is some component's identifier |
| Grouping.GroupFrom | bom.py:65-69 | every record of an identifier's group belongs to a component with that identifier |
| Grouping.GroupHas | bom.py:65-69 | every component's record is in the group of its identifier |
| Grouping.GroupHead | bom.py:65-69 | the first component with an identifier supplies the first record of its group |
| Grouping.Merged | bom.py:65-69 | the entry one group of records should produce: the references joined by `", "`, the group size as quantity and the rest of the first record; related to the loop by Grouping.MergedSnoc and Grouping.FoldIsGroupThenMerge |
| Grouping.Expected | bom.py:65-69 | the reference definition of the bill: its keys are exactly the identifiers some element carries, each holding its merged group; related to the loop by Grouping.FoldIsGroupThenMerge |
| Grouping.MergedSnoc | bom.py:66-67 | merging one more record increments the counter and appends `", "` and its reference, keeping the rest |
| Grouping.FoldIsGroupThenMerge | bom.py:65-69 | the fold raises nothing exactly on mergeable inputs, and then equals group-then-merge |
| BomProperties.AggregateIsGroupThenMerge | bom.py:40-69 | the pass over the components raises nothing exactly on mergeable inputs, and then yields every identifier's group merged |
| BomProperties.KeyCoverage | bom.py:65-69 | every component's identifier is a key of the bill |
| BomProperties.KeysIdentify | bom.py:65-69 | every key of the bill is some component's identifier |
| BomProperties.EntryContents | bom.py:65-69 | an entry's reference is the references of its group joined by `", "` in input order; its quantity is the group size (a single record keeps its own cell); everything else comes from the first record |
| BomProperties.EntryCount | bom.py:43-69 | without `qtty` fields, an entry's quantity is the number of components with its identifier |
| BomProperties.FirstWins | bom.py:65-69 | an entry keeps the value, footprint and fields of the first component with its identifier |
| Quantities.InsertAddsOne | bom.py:65-69 | inserting a record with counter 1 into a bill whose quantities are all counters raises nothing and adds one to the total quantity |
| Quantities.StepAddsOne | bom.py:54-69 | into a bill whose quantities are all counters, a component without a `qtty` field raises exactly when the identifier field is `qtty` and it has a `fields` container; otherwise it adds one to the total quantity and keeps every quantity a counter |
| Quantities.CountersNeverRaise | bom.py:40-69 | without `qtty` fields, the pass raises exactly when the identifier field is `qtty` and some component has a `fields` container |
| Quantities.QuantityConserved | bom.py:43-69 | without `qtty` fields, the quantities of the entries add up to the number of components |

## Left out

- Command-line parsing, the input-file check, the overwrite prompt and `sys.exit` (bom.py:16-28, 79-88): user interaction and I/O.
- Logging (bom.py:17, 29, 35, 48, 53, 71): diagnostics with no effect on the result.
- XML parsing (bom.py:37-40, 44-57): a foreign library. The model starts from the parsed `comp` elements.
- The text of an empty element and a `field` without a `name` attribute (bom.py:45, 50, 57-58): Python gives `None` there. Every text and field name is a plain string in the model. So these are not modelled:
  - the `AttributeError` of `.strip()` on a `None` part number (bom.py:60);
  - the `TypeError` of `'N/A-' + None` (bom.py:62) and `', ' + None` (bom.py:67) when an empty field named `ref` replaced the reference;
  - `None` keys in the dictionary.
- The DataFrame, its sort by reference and the Excel file (bom.py:72-76): a third-party library and a file sink.
- Quantities.QuantityConserved: stated only for inputs where no component has a field named `qtty`. Such a field puts text where the counter was, and the sum of quantities is then undefined.
- BomProperties.EntryCount: stated only for inputs where no component has a field named `qtty`, for the same reason. EntryContents covers the general case.

=== FILE: aggregation.dfy ===
/** The bill of materials and the single pass of bom.py's `main` that folds the components,
    in document order, into it. */
module Aggregation {
  import opened Wrappers
  import opened Strings
  import opened Components
  import opened Identifiers

  /** The bill of materials: identifier to merged record. */
  type Bom = map<string, Record>

  /** Adds one component record under its identifier: a new identifier stores the record as it is;
      a known one increments the entry's quantity and appends `", "` and the record's reference,
      leaving everything else of the first record in place. */
  function Insert(bom: Bom, id: string, component: Record): (s: Result<Bom, Error>)
    ensures s.Failure? <==> id in bom && bom[id].qtty.Text?
    ensures s.Success? ==> s.value.Keys == bom.Keys + {id}
    ensures s.Success? ==> forall k :: k in bom && k != id ==> s.value[k] == bom[k]
    ensures s.Success? && id !in bom ==> s.value[id] == component
    ensures s.Success? && id in bom ==>
      && s.value[id].others == bom[id].others
      && s.value[id].qtty == Count(bom[id].qtty.n + 1)
      && s.value[id].ref == bom[id].ref + Separator + component.ref
  {
    if id in bom then
      var entry := bom[id];
      match entry.qtty
      case Count(n) =>
        Success(bom[id := entry.(qtty := Count(n + 1), ref := entry.ref + Separator + component.ref)])
      case Text(_) => Failure(TypeError(id))
    else
      Success(bom[id := component])
  }

  /** Folds one component into the bill: identify it, build its record and insert it. */
  function Step(bom: Bom, c: Comp, mpnField: string): (s: Result<Bom, Error>)
  {
    var id := Identify(c, mpnField);
    if id.Failure? then Failure(id.error) else Insert(bom, id.value, Build(c))
  }

  /** Nothing else changes: a step raises exactly when the component has no identifier or its
      entry's quantity is text, and otherwise touches only the entry under its identifier. */
  lemma StepFrame(bom: Bom, c: Comp, mpnField: string)
    ensures var s, id := Step(bom, c, mpnField), Identify(c, mpnField);
      && (s.Failure? <==> id.Failure? || (id.value in bom && bom[id.value].qtty.Text?))
      && (s.Success? ==> s.value.Keys == bom.Keys + {id.value})
      && (s.Success? ==> forall k :: k in bom && k != id.value ==> s.value[k] == bom[k])
  {
  }

  /** A successful step keeps every identifier and adds at most the component's own. */
  lemma StepGrows(bom: Bom, c: Comp, mpnField: string)
    ensures Step(bom, c, mpnField).Success? ==>
      && bom.Keys <= Step(bom, c, mpnField).value.Keys
      && |Step(bom, c, mpnField).value| <= |bom| + 1
      && Identify(c, mpnField).Success?
      && Identify(c, mpnField).value in Step(bom, c, mpnField).value
  {
    StepFrame(bom, c, mpnField);
  }

  /** The bill after folding every component of `cs` in order, or the first error raised. */
  function Aggregate(cs: seq<Comp>, mpnField: string): (a: Result<Bom, Error>)
    ensures a.Success? ==> |a.value| <= |cs|
    decreases |cs|
  {
    if cs == [] then Success(map[])
    else
      var prev := Aggregate(cs[..|cs| - 1], mpnField);
      if prev.Failure? then prev
      else
        var s := Step(prev.value, cs[|cs| - 1], mpnField);
        StepGrows(prev.value, cs[|cs| - 1], mpnField);
        s
  }

  /** Folding a prefix one component longer is one more step on the shorter prefix's bill. */
  lemma AggregatePrefix(cs: seq<Comp>, mpnField: string, i: nat, bom: Bom)
    requires i < |cs| && Aggregate(cs[..i], mpnField) == Success(bom)
    ensures Aggregate(cs[..i + 1], mpnField) == Step(bom, cs[i], mpnField)
  {
    assert cs[..i + 1][..i] == cs[..i];
  }

  /** Once a prefix of the input raises, the whole fold raises the same error. */
  lemma {:induction false} FailurePersists(cs: seq<Comp>, mpnField: string, n: nat)
    requires n <= |cs| && Aggregate(cs[..n], mpnField).Failure?
    ensures Aggregate(cs, mpnField) == Aggregate(cs[..n], mpnField)
    decreases |cs| - n
  {
    if n < |cs| {
      assert cs[..n + 1][..n] == cs[..n];
      FailurePersists(cs, mpnField, n + 1);
    } else {
      assert cs[..n] == cs;
    }
  }

  /** `main`'s loop: the identifier field is the configured one, or "MPN" (`DefaultMpnField`)
      when none is configured; then every component is folded in document order, stopping at the
      first error. */
  method BuildBom(cs: seq<Comp>, mpn: Option<string>) returns (result: Result<Bom, Error>)
    ensures result == Aggregate(cs, mpn.GetOr(DefaultMpnField))
  {
    var mpnField := if mpn.Some? then mpn.value else DefaultMpnField;
    var bom: Bom := map[];
    var i := 0;
    while i < |cs|
      invariant i <= |cs|
      invariant Aggregate(cs[..i], mpnField) == Success(bom)
    {
      AggregatePrefix(cs, mpnField, i, bom);
      var s := Step(bom, cs[i], mpnField);
      if s.Failure? {
        FailurePersists(cs, mpnField, i + 1);
        return s;
      }
      bom := s.value;
      i := i + 1;
    }
    assert cs[..i] == cs;
    result := Success(bom);
  }
}

=== FILE: components.dfy ===
/** The per-component record built by the loop of bom.py's `main`: one flat dictionary holding
    the reference, the quantity counter, the value, the footprint and every named field. */
module Components {
  import opened Wrappers
  import opened Strings

  /** The sentinel stored when the reference, value or footprint is absent. */
  const Missing := "missing"

  const RefKey := "ref"
  const QttyKey := "qtty"
  const ValueKey := "value"
  const FootprintKey := "footprint"

  /** A `field` element of a component's `fields` container: its `name` attribute and its text. */
  datatype Field = Field(name: string, text: string)

  /** One `comp` element as the XML parser delivers it; every part the document may omit is optional. */
  datatype Comp = Comp(
    ref: Option<string>,
    value: Option<string>,
    footprint: Option<string>,
    fields: Option<seq<Field>>)

  /** A dictionary value: text, or the integer quantity counter. */
  datatype Cell = Text(text: string) | Count(n: nat)

  /** The component dictionary. The "ref" key always holds text and the "qtty" key holds the
      counter unless a field named "qtty" replaced it with text; every other key lives in `others`. */
  datatype Record = Record(ref: string, qtty: Cell, others: map<string, string>)

  /** Dictionary lookup: `component.get(key)`. */
  function Get(r: Record, key: string): (cell: Option<Cell>)
  {
    if key == RefKey then Some(Text(r.ref))
    else if key == QttyKey then Some(r.qtty)
    else if key in r.others then Some(Text(r.others[key]))
    else None
  }

  /** Dictionary assignment of text: `component[key] = text`. */
  function Put(r: Record, key: string, text: string): (r': Record)
    ensures Get(r', key) == Some(Text(text))
    ensures forall k :: k != key ==> Get(r', k) == Get(r, k)
  {
    if key == RefKey then r.(ref := text)
    else if key == QttyKey then r.(qtty := Text(text))
    else r.(others := r.others[key := text])
  }

  /** Some field of `fs` is called `key`. */
  predicate Named(fs: seq<Field>, key: string) {
    exists i :: 0 <= i < |fs| && fs[i].name == key
  }

  /** No field after position `i` carries the same name as the field at `i`. */
  predicate LastNamed(fs: seq<Field>, i: nat)
    requires i < |fs|
  {
    forall j :: i < j < |fs| ==> fs[j].name != fs[i].name
  }

  /** Writes the fields into the record in document order, so that a later field overwrites an
      earlier one and any built-in entry of the same name. */
  function PutFields(r: Record, fs: seq<Field>): (r': Record)
  {
    if fs == [] then r
    else Put(PutFields(r, fs[..|fs| - 1]), fs[|fs| - 1].name, fs[|fs| - 1].text)
  }

  /** Writing the fields touches only the entries they name, and leaves text under each of those. */
  lemma {:induction false} PutFieldsFrame(r: Record, fs: seq<Field>, k: string)
    ensures !Named(fs, k) ==> Get(PutFields(r, fs), k) == Get(r, k)
    ensures Named(fs, k) ==> Get(PutFields(r, fs), k).Some? && Get(PutFields(r, fs), k).value.Text?
  {
    if fs != [] {
      var init := fs[..|fs| - 1];
      var last := fs[|fs| - 1];
      PutFieldsFrame(r, init, k);
      if Named(init, k) {
        var i :| 0 <= i < |init| && init[i].name == k;
        assert fs[i].name == k;
      }
      if Named(fs, k) && k != last.name {
        var i :| 0 <= i < |fs| && fs[i].name == k;
        assert init[i].name == k;
      }
    }
  }

  /** Last field wins: the entry under a field's name holds the text of the last field with that name. */
  lemma {:induction false} PutFieldsLastWins(r: Record, fs: seq<Field>, i: nat)
    requires i < |fs| && LastNamed(fs, i)
    ensures Get(PutFields(r, fs), fs[i].name) == Some(Text(fs[i].text))
  {
    var init := fs[..|fs| - 1];
    var last := fs[|fs| - 1];
    if i < |init| {
      assert init[i] == fs[i];
      assert fs[i].name != last.name;
      PutFieldsLastWins(r, init, i);
    }
  }

  /** True when the component has a `fields` container holding a field named `key`. */
  predicate HasField(c: Comp, key: string) {
    c.fields.Some? && Named(c.fields.value, key)
  }

  /** The record bom.py builds for one component, before it meets the others. */
  function Build(c: Comp): (r: Record)
  {
    var base := Record(
      Strip(c.ref.GetOr(Missing)),
      Count(1),
      map[ValueKey := c.value.GetOr(Missing), FootprintKey := c.footprint.GetOr(Missing)]);
    PutFields(base, c.fields.GetOr([]))
  }

  /** The defaults of a new record: the stripped reference (the sentinel "missing" when absent),
      the counter 1, and the value and footprint or the sentinel, each holding unless a field of
      the same name overrides it. */
  lemma BuildDefaults(c: Comp)
    ensures var r := Build(c);
      && (!HasField(c, RefKey) ==> r.ref == Strip(c.ref.GetOr(Missing)))
      && (c.ref.None? && !HasField(c, RefKey) ==> r.ref == Missing)
      && (r.qtty == Count(1) <==> !HasField(c, QttyKey))
      && (r.qtty.Count? ==> r.qtty == Count(1))
      && (!HasField(c, ValueKey) ==> Get(r, ValueKey) == Some(Text(c.value.GetOr(Missing))))
      && (!HasField(c, FootprintKey) ==> Get(r, FootprintKey) == Some(Text(c.footprint.GetOr(Missing))))
  {
    var base := Record(
      Strip(c.ref.GetOr(Missing)),
      Count(1),
      map[ValueKey := c.value.GetOr(Missing), FootprintKey := c.footprint.GetOr(Missing)]);
    var fs := c.fields.GetOr([]);
    assert Strip(Missing) == Missing by { StripTrimmed(Missing); }
    assert forall k :: HasField(c, k) <==> Named(fs, k);
    PutFieldsFrame(base, fs, RefKey);
    PutFieldsFrame(base, fs, QttyKey);
    PutFieldsFrame(base, fs, ValueKey);
    PutFieldsFrame(base, fs, FootprintKey);
  }

  /** A named field of the component overrides whatever the record would otherwise hold under that
      name, the last field of that name winning. */
  lemma BuildFieldWins(c: Comp, i: nat)
    requires c.fields.Some? && i < |c.fields.value| && LastNamed(c.fields.value, i)
    ensures Get(Build(c), c.fields.value[i].name) == Some(Text(c.fields.value[i].text))
  {
    var base := Record(
      Strip(c.ref.GetOr(Missing)),
      Count(1),
      map[ValueKey := c.value.GetOr(Missing), FootprintKey := c.footprint.GetOr(Missing)]);
    PutFieldsLastWins(base, c.fields.value, i);
  }

  /** The record holds exactly the four built-in entries and one entry per field name. */
  lemma BuildKeys(c: Comp, k: string)
    ensures Get(Build(c), k).Some? <==>
      k == RefKey || k == QttyKey || k == ValueKey || k == FootprintKey || HasField(c, k)
  {
    var base := Record(
      Strip(c.ref.GetOr(Missing)),
      Count(1),
      map[ValueKey := c.value.GetOr(Missing), FootprintKey := c.footprint.GetOr(Missing)]);
    PutFieldsFrame(base, c.fields.GetOr([]), k);
  }
}

=== FILE: grouping.dfy ===
/** A second, declarative description of the bill of materials — group the component records by
    identifier, then merge each group — and the proof that the single pass of `main` computes it.
    The pass is first restated over the components' identifiers and records, computed up front. */
module Grouping {
  import opened Wrappers
  import opened Strings
  import opened Components
  import opened Identifiers
  import opened Aggregation

  /** A component's identifier (or the error computing it raises) together with its record. */
  datatype Keyed = Keyed(id: Result<string, Error>, record: Record)

  /** The identifier and record of every component, in input order. */
  function KeyAll(cs: seq<Comp>, mpnField: string): (ks: seq<Keyed>)
    ensures |ks| == |cs|
    ensures forall i :: 0 <= i < |cs| ==> ks[i] == Keyed(Identify(cs[i], mpnField), Build(cs[i]))
  {
    seq(|cs|, i requires 0 <= i < |cs| => Keyed(Identify(cs[i], mpnField), Build(cs[i])))
  }

  /** Records as `Build` makes them: a quantity that is a counter is the counter 1. */
  predicate Fresh(ks: seq<Keyed>) {
    forall i :: 0 <= i < |ks| ==> FreshRecord(ks[i].record)
  }

  /** A quantity that is a counter is the counter 1. */
  predicate FreshRecord(r: Record) {
    r.qtty.Count? ==> r.qtty == Count(1)
  }

  /** A prefix of fresh records is fresh. */
  lemma FreshPrefix(ks: seq<Keyed>)
    requires |ks| > 0 && Fresh(ks)
    ensures Fresh(ks[..|ks| - 1])
  {
    assert forall i :: 0 <= i < |ks| - 1 ==> ks[..|ks| - 1][i] == ks[i];
  }

  /** The pass of `main` over precomputed identifiers and records. */
  function Fold(ks: seq<Keyed>): (b: Result<Bom, Error>)
    decreases |ks|
  {
    if ks == [] then Success(map[])
    else
      var prev := Fold(ks[..|ks| - 1]);
      var last := ks[|ks| - 1];
      if prev.Failure? then prev
      else if last.id.Failure? then Failure(last.id.error)
      else Insert(prev.value, last.id.value, last.record)
  }

  /** Identifying and building each component as the pass meets it is the same as doing so up front. */
  lemma {:induction false} AggregateIsFold(cs: seq<Comp>, mpnField: string)
    ensures Aggregate(cs, mpnField) == Fold(KeyAll(cs, mpnField))
    decreases |cs|
  {
    if cs != [] {
      var init := cs[..|cs| - 1];
      AggregateIsFold(init, mpnField);
      assert KeyAll(cs, mpnField)[..|cs| - 1] == KeyAll(init, mpnField);
    }
  }

  /** The records of `ks` whose identifier is `k`, in input order. */
  function Group(ks: seq<Keyed>, k: string): (g: seq<Record>)
    ensures |g| <= |ks|
    decreases |ks|
  {
    if ks == [] then []
    else
      var last := ks[|ks| - 1];
      Group(ks[..|ks| - 1], k) + (if last.id == Success(k) then [last.record] else [])
  }

  /** The identifiers that some element of `ks` carries. */
  function KeySet(ks: seq<Keyed>): (keys: set<string>)
    decreases |ks|
  {
    if ks == [] then {}
    else
      var id := ks[|ks| - 1].id;
      KeySet(ks[..|ks| - 1]) + (if id.Success? then {id.value} else {})
  }

  /** The reference labels of the records of `g`, in order. */
  function Refs(g: seq<Record>): (refs: seq<string>)
    ensures |refs| == |g|
    decreases |g|
  {
    if g == [] then [] else Refs(g[..|g| - 1]) + [g[|g| - 1].ref]
  }

  /** The entry a group of records with one identifier should produce: the first record's
      value, footprint and fields, every reference in order, and the group's size as quantity
      (a single record keeps its own quantity cell). */
  function Merged(g: seq<Record>): (entry: Record)
    requires |g| > 0
  {
    Record(Join(Refs(g)), if |g| == 1 then g[0].qtty else Count(|g|), g[0].others)
  }

  /** The bill of materials as group-then-merge. */
  function Expected(ks: seq<Keyed>): (bom: Bom)
    ensures bom.Keys == KeySet(ks)
  {
    GroupsOfKeys(ks);
    map k | k in KeySet(ks) :: Merged(Group(ks, k))
  }

  /** The inputs on which the pass raises nothing: every component has an identifier, and every
      identifier shared by several components starts from a record whose quantity is the counter. */
  predicate Mergeable(ks: seq<Keyed>) {
    && (forall i :: 0 <= i < |ks| ==> ks[i].id.Success?)
    && (forall k :: k in KeySet(ks) && |Group(ks, k)| >= 2 ==> Group(ks, k)[0].qtty.Count?)
  }

  /** An identifier has a non-empty group exactly when some element carries it. */
  lemma {:induction false} GroupsOfKeys(ks: seq<Keyed>)
    ensures forall k :: k in KeySet(ks) <==> |Group(ks, k)| > 0
    decreases |ks|
  {
    if ks != [] {
      GroupsOfKeys(ks[..|ks| - 1]);
    }
  }

  /** An identifier is in the key set exactly when some element of the input carries it. */
  lemma {:induction false} KeySetMembers(ks: seq<Keyed>, k: string)
    ensures k in KeySet(ks) <==> exists i :: 0 <= i < |ks| && ks[i].id == Success(k)
    decreases |ks|
  {
    if ks != [] {
      var init := ks[..|ks| - 1];
      KeySetMembers(init, k);
      if exists i :: 0 <= i < |ks| && ks[i].id == Success(k) {
        var i :| 0 <= i < |ks| && ks[i].id == Success(k);
        if i < |init| {
          assert init[i] == ks[i];
        }
      }
      if exists i :: 0 <= i < |init| && init[i].id == Success(k) {
        var i :| 0 <= i < |init| && init[i].id == Success(k);
        assert ks[i] == init[i];
      }
    }
  }

  /** Every element's identifier is a key of the expected bill, and every key is some element's identifier. */
  lemma KeySetCovers(ks: seq<Keyed>, bom: Bom)
    requires Mergeable(ks) && bom == Expected(ks)
    ensures forall i :: 0 <= i < |ks| ==> ks[i].id.Success? && ks[i].id.value in bom
    ensures forall k :: k in bom ==> exists i :: 0 <= i < |ks| && ks[i].id == Success(k)
  {
    forall i | 0 <= i < |ks| ensures ks[i].id.value in bom {
      KeySetMembers(ks, ks[i].id.value);
    }
    forall k | k in bom ensures exists i :: 0 <= i < |ks| && ks[i].id == Success(k) {
      KeySetMembers(ks, k);
    }
  }

  /** The group of an identifier grows by the last element exactly when it carries that identifier. */
  lemma GroupSnoc(ks: seq<Keyed>, k: string)
    requires |ks| > 0
    ensures ks[|ks| - 1].id == Success(k) ==> Group(ks, k) == Group(ks[..|ks| - 1], k) + [ks[|ks| - 1].record]
    ensures ks[|ks| - 1].id != Success(k) ==> Group(ks, k) == Group(ks[..|ks| - 1], k)
  {
  }

  /** Every record of an identifier's group is the record of an element carrying that identifier. */
  lemma {:induction false} GroupFrom(ks: seq<Keyed>, k: string, i: nat)
    requires i < |Group(ks, k)|
    ensures exists j :: 0 <= j < |ks| && ks[j].id == Success(k) && ks[j].record == Group(ks, k)[i]
    decreases |ks|
  {
    var init := ks[..|ks| - 1];
    GroupSnoc(ks, k);
    if i < |Group(init, k)| {
      GroupFrom(init, k, i);
      var j :| 0 <= j < |init| && init[j].id == Success(k) && init[j].record == Group(init, k)[i];
      assert ks[j] == init[j];
    } else {
      assert ks[|ks| - 1].record == Group(ks, k)[i];
    }
  }

  /** The record of every element carrying an identifier is in that identifier's group. */
  lemma {:induction false} GroupHas(ks: seq<Keyed>, k: string, j: nat)
    requires j < |ks| && ks[j].id == Success(k)
    ensures ks[j].record in Group(ks, k)
    decreases |ks|
  {
    var init := ks[..|ks| - 1];
    GroupSnoc(ks, k);
    if j < |init| {
      assert init[j] == ks[j];
      GroupHas(init, k, j);
    }
  }

  /** The condition under which a group may take one more record: it is empty, already shared,
      or its single record's quantity is the counter. */
  predicate Extensible(g: seq<Record>) {
    |g| == 0 || |g| >= 2 || g[0].qtty.Count?
  }

  /** Whether the pass can absorb one more element depends only on the groups built so far. */
  lemma MergeableSnoc(ks: seq<Keyed>)
    requires |ks| > 0
    ensures var init, last := ks[..|ks| - 1], ks[|ks| - 1];
      Mergeable(ks) <==>
        Mergeable(init) && last.id.Success? && Extensible(Group(init, last.id.value))
  {
    var init, last := ks[..|ks| - 1], ks[|ks| - 1];
    assert forall i :: 0 <= i < |init| ==> init[i] == ks[i];
    if Mergeable(ks) {
      MergeableShrinks(ks);
      GroupSnoc(ks, last.id.value);
    }
    if Mergeable(init) && last.id.Success? && Extensible(Group(init, last.id.value)) {
      MergeableGrows(ks);
    }
  }

  /** Dropping the last element keeps the input mergeable. */
  lemma MergeableShrinks(ks: seq<Keyed>)
    requires |ks| > 0 && Mergeable(ks)
    ensures Mergeable(ks[..|ks| - 1])
  {
    var init := ks[..|ks| - 1];
    assert forall i :: 0 <= i < |init| ==> init[i] == ks[i];
    forall k | k in KeySet(init) && |Group(init, k)| >= 2
      ensures Group(init, k)[0].qtty.Count?
    {
      GroupSnoc(ks, k);
    }
  }

  /** A mergeable input stays mergeable when its last element joins an extensible group. */
  lemma MergeableGrows(ks: seq<Keyed>)
    requires |ks| > 0
    requires Mergeable(ks[..|ks| - 1]) && ks[|ks| - 1].id.Success?
    requires Extensible(Group(ks[..|ks| - 1], ks[|ks| - 1].id.value))
    ensures Mergeable(ks)
  {
    var init, last := ks[..|ks| - 1], ks[|ks| - 1];
    forall k | k in KeySet(ks) && |Group(ks, k)| >= 2
      ensures Group(ks, k)[0].qtty.Count?
    {
      var g0 := Group(init, k);
      assert |g0| >= 2 ==> g0[0].qtty.Count? by { GroupsOfKeys(init); }
      GroupSnoc(ks, k);
      ExtendedHead(g0, Group(ks, k), last.record, last.id == Success(k));
    }
  }

  /** A group of two or more records that grew from an extensible one starts with a counter. */
  lemma ExtendedHead(g0: seq<Record>, g: seq<Record>, r: Record, carried: bool)
    requires g == (if carried then g0 + [r] else g0)
    requires |g0| >= 2 ==> g0[0].qtty.Count?
    requires carried ==> Extensible(g0)
    requires |g| >= 2
    ensures g[0].qtty.Count?
  {
    if carried {
      assert g[0] == g0[0];
    }
  }

  /** Merging one more record into a group whose quantity is the counter increments the counter
      and appends the record's reference; nothing else changes. */
  lemma MergedSnoc(g: seq<Record>, r: Record)
    requires |g| > 0 && g[0].qtty.Count?
    requires |g| == 1 ==> g[0].qtty == Count(1)
    ensures Merged(g + [r]) == Record(Merged(g).ref + Separator + r.ref, Count(|g| + 1), Merged(g).others)
  {
    assert (g + [r])[..|g|] == g;
    assert Refs(g + [r]) == Refs(g) + [r.ref];
    assert (Refs(g) + [r.ref])[..|g|] == Refs(g);
    assert (g + [r])[0] == g[0];
  }

  /** A record alone is its own merged entry. */
  lemma MergedSingle(r: Record)
    ensures Merged([r]) == r
  {
  }

  /** The entry of an identifier in the expected bill is its merged group. */
  lemma ExpectedAt(ks: seq<Keyed>, k: string)
    requires k in KeySet(ks)
    ensures |Group(ks, k)| > 0
    ensures Expected(ks)[k] == Merged(Group(ks, k))
  {
    GroupsOfKeys(ks);
  }

  /** A group may take one more record exactly when the expected entry's quantity is the counter. */
  lemma ExtensibleEntry(ks: seq<Keyed>, k: string)
    requires Mergeable(ks)
    ensures Extensible(Group(ks, k)) <==> !(k in Expected(ks) && Expected(ks)[k].qtty.Text?)
  {
    GroupsOfKeys(ks);
    if k in KeySet(ks) {
      ExpectedAt(ks, k);
    }
  }

  /** Records in a group come from the input, so they are fresh when the input is. */
  lemma {:induction false} GroupFresh(ks: seq<Keyed>, k: string)
    requires Fresh(ks)
    ensures forall i :: 0 <= i < |Group(ks, k)| ==> FreshRecord(Group(ks, k)[i])
    decreases |ks|
  {
    if ks != [] {
      FreshPrefix(ks);
      GroupFresh(ks[..|ks| - 1], k);
      GroupSnoc(ks, k);
    }
  }

  /** The group a known identifier had before one more element joins it: non-empty, starting with
      a counter quantity (the counter 1 when alone), and extended by the new record. */
  lemma KnownGroup(ks: seq<Keyed>)
    requires |ks| > 0 && Fresh(ks) && Mergeable(ks)
    requires ks[|ks| - 1].id.Success? && ks[|ks| - 1].id.value in KeySet(ks[..|ks| - 1])
    ensures var init, last := ks[..|ks| - 1], ks[|ks| - 1];
      var g := Group(init, last.id.value);
      && |g| > 0 && g[0].qtty.Count? && (|g| == 1 ==> g[0].qtty == Count(1))
  {
    var init, last := ks[..|ks| - 1], ks[|ks| - 1];
    var id := last.id.value;
    MergeableSnoc(ks);
    GroupsOfKeys(init);
    FreshPrefix(ks);
    GroupFresh(init, id);
  }

  /** One more element with a known identifier turns that identifier's expected entry into the
      entry `Insert` produces from it. */
  lemma ExpectedSnocKnown(ks: seq<Keyed>)
    requires |ks| > 0 && ks[|ks| - 1].id.Success? && ks[|ks| - 1].id.value in KeySet(ks[..|ks| - 1])
    requires var g := Group(ks[..|ks| - 1], ks[|ks| - 1].id.value);
      |g| > 0 && g[0].qtty.Count? && (|g| == 1 ==> g[0].qtty == Count(1))
    ensures var init, last := ks[..|ks| - 1], ks[|ks| - 1];
      var entry := Expected(init)[last.id.value];
      && entry.qtty.Count?
      && Expected(ks)[last.id.value]
         == Record(entry.ref + Separator + last.record.ref, Count(entry.qtty.n + 1), entry.others)
  {
    var init, last := ks[..|ks| - 1], ks[|ks| - 1];
    var id := last.id.value;
    var g := Group(init, id);
    ExpectedAt(init, id);
    GroupSnoc(ks, id);
    ExpectedAt(ks, id);
    MergedSnocAt(g, last.record, Expected(init)[id], Expected(ks)[id]);
  }

  /** `MergedSnoc` restated over the two entries, so that callers need not expand either one. */
  lemma MergedSnocAt(g: seq<Record>, r: Record, e0: Record, e1: Record)
    requires |g| > 0 && g[0].qtty.Count?
    requires |g| == 1 ==> g[0].qtty == Count(1)
    requires e0 == Merged(g) && e1 == Merged(g + [r])
    ensures e0.qtty.Count? && e1 == Record(e0.ref + Separator + r.ref, Count(e0.qtty.n + 1), e0.others)
  {
    MergedSnoc(g, r);
  }

  /** One more element leaves the expected entry of every other identifier as it was. */
  lemma ExpectedSnocOther(ks: seq<Keyed>, k: string)
    requires |ks| > 0 && k in KeySet(ks[..|ks| - 1]) && ks[|ks| - 1].id != Success(k)
    ensures k in Expected(ks) && Expected(ks)[k] == Expected(ks[..|ks| - 1])[k]
  {
    GroupSnoc(ks, k);
    ExpectedAt(ks[..|ks| - 1], k);
    ExpectedAt(ks, k);
  }

  /** One more element with a new identifier gets an expected entry that is its own record. */
  lemma ExpectedSnocNew(ks: seq<Keyed>)
    requires |ks| > 0 && ks[|ks| - 1].id.Success? && ks[|ks| - 1].id.value !in KeySet(ks[..|ks| - 1])
    ensures Expected(ks)[ks[|ks| - 1].id.value] == ks[|ks| - 1].record
  {
    var init, last := ks[..|ks| - 1], ks[|ks| - 1];
    GroupsOfKeys(init);
    GroupSnoc(ks, last.id.value);
    ExpectedAt(ks, last.id.value);
    MergedSingle(last.record);
  }

  /** Folding one more element into the expected bill of a prefix gives the expected bill. */
  lemma ExpectedSnoc(ks: seq<Keyed>)
    requires |ks| > 0 && Fresh(ks) && Mergeable(ks)
    ensures ks[|ks| - 1].id.Success?
    ensures Insert(Expected(ks[..|ks| - 1]), ks[|ks| - 1].id.value, ks[|ks| - 1].record) == Success(Expected(ks))
  {
    var init, last := ks[..|ks| - 1], ks[|ks| - 1];
    InsertSucceeds(ks);
    var id := last.id.value;
    var prev := Expected(init);
    var bom := Insert(prev, id, last.record).value;
    var want := Expected(ks);
    assert bom.Keys == want.Keys by {
      assert KeySet(ks) == KeySet(init) + {id};
    }
    forall k | k in bom ensures bom[k] == want[k] {
      ExpectedSnocAt(ks, k);
    }
    SameEntries(bom, want);
  }

  /** Two bills with the same identifiers and the same entry under each are equal. */
  lemma SameEntries(a: Bom, b: Bom)
    requires a.Keys == b.Keys
    requires forall k :: k in a ==> a[k] == b[k]
    ensures a == b
  {
  }

  /** On a mergeable input the last element has an identifier and inserting it raises nothing. */
  lemma InsertSucceeds(ks: seq<Keyed>)
    requires |ks| > 0 && Mergeable(ks)
    ensures ks[|ks| - 1].id.Success?
    ensures Insert(Expected(ks[..|ks| - 1]), ks[|ks| - 1].id.value, ks[|ks| - 1].record).Success?
  {
    MergeableSnoc(ks);
    ExtensibleEntry(ks[..|ks| - 1], ks[|ks| - 1].id.value);
  }

  /** The entry of one identifier after folding one more element into the expected bill. */
  lemma ExpectedSnocAt(ks: seq<Keyed>, k: string)
    requires |ks| > 0 && Fresh(ks) && Mergeable(ks)
    requires k in KeySet(ks)
    ensures ks[|ks| - 1].id.Success?
    ensures Insert(Expected(ks[..|ks| - 1]), ks[|ks| - 1].id.value, ks[|ks| - 1].record).Success?
    ensures Insert(Expected(ks[..|ks| - 1]), ks[|ks| - 1].id.value, ks[|ks| - 1].record).value[k] == Expected(ks)[k]
  {
    var init, last := ks[..|ks| - 1], ks[|ks| - 1];
    InsertSucceeds(ks);
    var id := last.id.value;
    if k != id {
      ExpectedSnocOther(ks, k);
    } else if id in KeySet(init) {
      KnownGroup(ks);
      ExpectedSnocKnown(ks);
    } else {
      ExpectedSnocNew(ks);
    }
  }

  /** The pass over precomputed identifiers and records succeeds exactly on the mergeable inputs,
      and then yields the group-then-merge bill. */
  lemma {:induction false} FoldIsGroupThenMerge(ks: seq<Keyed>)
    requires Fresh(ks)
    ensures Fold(ks).Success? <==> Mergeable(ks)
    ensures Fold(ks).Success? ==> Fold(ks).value == Expected(ks)
    decreases |ks|
  {
    if ks == [] {
      assert Expected(ks) == map[];
    } else {
      var init, last := ks[..|ks| - 1], ks[|ks| - 1];
      FreshPrefix(ks);
      FoldIsGroupThenMerge(init);
      MergeableSnoc(ks);
      if !Mergeable(init) || last.id.Failure? {
        assert !Mergeable(ks);
        assert Fold(ks).Failure?;
      } else {
        var id := last.id.value;
        var prev := Fold(init).value;
        assert prev == Expected(init);
        assert Fold(ks) == Insert(prev, id, last.record);
        ExtensibleEntry(init, id);
        if Mergeable(ks) {
          ExpectedSnoc(ks);
          assert Fold(ks) == Success(Expected(ks));
        } else {
          assert id in prev && prev[id].qtty.Text?;
          assert Fold(ks).Failure?;
        }
      }
    }
  }

  /** The first element carrying an identifier supplies the first record of its group. */
  lemma {:induction false} GroupHead(ks: seq<Keyed>, i: nat, k: string)
    requires i < |ks| && ks[i].id == Success(k)
    requires forall j :: 0 <= j < i ==> ks[j].id != Success(k)
    ensures |Group(ks, k)| > 0 && Group(ks, k)[0] == ks[i].record
    decreases |ks|
  {
    var init := ks[..|ks| - 1];
    GroupSnoc(ks, k);
    if i < |init| {
      GroupHead(init, i, k);
    } else {
      assert forall j :: 0 <= j < |init| ==> init[j].id != Success(k) by {
        forall j | 0 <= j < |init| ensures init[j].id != Success(k) {
          assert init[j] == ks[j];
        }
      }
      KeySetMembers(init, k);
      GroupsOfKeys(init);
    }
  }
}

=== FILE: identifiers.dfy ===
/** How bom.py decides which entry of the bill of materials a component belongs to. */
module Identifiers {
  import opened Wrappers
  import opened Strings
  import opened Components

  /** The field name used when none is configured. */
  const DefaultMpnField := "MPN"

  /** The literal marking an explicitly unavailable part number (compared case-sensitively). */
  const NotAvailable := "n/a"

  const FallbackPrefix := "N/A-"

  /** The exceptions the Python loop can raise when every element text and field name is present. */
  datatype Error =
      /** `.strip()` was called on the integer quantity: the configured field is "qtty" and no
          field of that name replaced the counter. */
    | AttributeError(mpnField: string)
      /** `+= 1` was applied to a quantity that a field named "qtty" had replaced with text. */
    | TypeError(id: string)

  /** The synthetic identifier of a component without a usable part number. */
  function Fallback(ref: string): (id: string) {
    FallbackPrefix + ref
  }

  /** A stripped part number that is neither empty nor exactly "n/a". */
  predicate Usable(mpn: string) {
    mpn != "" && mpn != NotAvailable
  }

  /** The identifier under which the component is aggregated. */
  function Identify(c: Comp, mpnField: string): (id: Result<string, Error>)
  {
    var r := Build(c);
    if c.fields.None? then Success(Fallback(r.ref))
    else
      match Get(r, mpnField)
      case None => Success(Fallback(r.ref))
      case Some(Count(_)) => Failure(AttributeError(mpnField))
      case Some(Text(t)) =>
        var mpn := Strip(t);
        if Usable(mpn) then Success(mpn) else Success(Fallback(r.ref))
  }

  /** A component without a `fields` container gets the fallback of its stripped reference; the
      lookup raises exactly when the configured field is "qtty" and no field replaced the counter;
      and a successful identifier is either a usable, trimmed part number or the fallback. */
  lemma IdentifyShape(c: Comp, mpnField: string)
    ensures var id := Identify(c, mpnField);
      && (c.fields.None? ==> id == Success(Fallback(Strip(c.ref.GetOr(Missing)))))
      && (id.Failure? <==> c.fields.Some? && mpnField == QttyKey && !HasField(c, QttyKey))
      && (id.Success? ==> (Usable(id.value) && Trimmed(id.value)) || id.value == Fallback(Build(c).ref))
  {
    BuildDefaults(c);
    BuildKeys(c, mpnField);
    match Get(Build(c), mpnField)
    case Some(Text(t)) => StripSpec(t);
    case _ =>
  }

  /** With a `fields` container, the identifier is the stripped text of the last field named
      after the configured field when that is usable, and the fallback otherwise. */
  lemma IdentifyByField(c: Comp, mpnField: string, i: nat)
    requires c.fields.Some? && i < |c.fields.value|
    requires c.fields.value[i].name == mpnField && LastNamed(c.fields.value, i)
    ensures Usable(Strip(c.fields.value[i].text)) ==>
      Identify(c, mpnField) == Success(Strip(c.fields.value[i].text))
    ensures !Usable(Strip(c.fields.value[i].text)) ==>
      Identify(c, mpnField) == Success(Fallback(Build(c).ref))
  {
    BuildFieldWins(c, i);
  }

  /** The text a component holds under a built-in key before any field overrides it: the stripped
      reference, the value or the footprint, each `"missing"` when absent. */
  function BuiltInText(c: Comp, key: string): (text: string)
    requires key == RefKey || key == ValueKey || key == FootprintKey
  {
    if key == RefKey then Strip(c.ref.GetOr(Missing))
    else if key == ValueKey then c.value.GetOr(Missing)
    else c.footprint.GetOr(Missing)
  }

  /** A configured field naming a built-in entry (ref, value or footprint) that no field of the
      component overrides: with a `fields` container, the identifier is that entry's stripped text
      when usable, and the fallback otherwise. */
  lemma IdentifyByBuiltIn(c: Comp, mpnField: string)
    requires c.fields.Some? && !HasField(c, mpnField)
    requires mpnField == RefKey || mpnField == ValueKey || mpnField == FootprintKey
    ensures var mpn := Strip(BuiltInText(c, mpnField));
      && (Usable(mpn) ==> Identify(c, mpnField) == Success(mpn))
      && (!Usable(mpn) ==> Identify(c, mpnField) == Success(Fallback(Build(c).ref)))
  {
    BuildDefaults(c);
    StripIdempotent(c.ref.GetOr(Missing));
  }

  /** A configured field that is neither a field of the component nor a built-in entry yields
      the fallback, even when the `fields` container exists. */
  lemma IdentifyWithoutField(c: Comp, mpnField: string)
    requires !HasField(c, mpnField)
    requires mpnField != RefKey && mpnField != QttyKey && mpnField != ValueKey && mpnField != FootprintKey
    ensures Identify(c, mpnField) == Success(Fallback(Build(c).ref))
  {
    BuildKeys(c, mpnField);
  }

  /** A component has a usable part number under the configured field. */
  predicate HasUsableMpn(c: Comp, mpnField: string) {
    && c.fields.Some?
    && var cell := Get(Build(c), mpnField);
    && cell.Some? && cell.value.Text? && Usable(Strip(cell.value.text))
  }

  /** Two components without a usable part number share an identifier exactly when their
      reference labels are equal. */
  lemma FallbacksSeparate(c: Comp, d: Comp, mpnField: string)
    requires !HasUsableMpn(c, mpnField) && !HasUsableMpn(d, mpnField)
    requires Identify(c, mpnField).Success? && Identify(d, mpnField).Success?
    ensures Identify(c, mpnField) == Identify(d, mpnField) <==> Build(c).ref == Build(d).ref
  {
    var a, b := Build(c).ref, Build(d).ref;
    assert Identify(c, mpnField) == Success(Fallback(a));
    assert Identify(d, mpnField) == Success(Fallback(b));
    if Fallback(a) == Fallback(b) {
      assert a == Fallback(a)[|FallbackPrefix|..];
      assert b == Fallback(b)[|FallbackPrefix|..];
    }
  }

  /** The "n/a" test is case-sensitive: a part number that reads "n/a" in any other mix of cases
      is used as it stands, whatever whitespace surrounds it. */
  lemma NotAvailableIsCaseSensitive(c: Comp, mpnField: string, i: nat)
    requires c.fields.Some? && i < |c.fields.value|
    requires c.fields.value[i].name == mpnField && LastNamed(c.fields.value, i)
    requires var t := Strip(c.fields.value[i].text); t == "N/A" || t == "N/a" || t == "n/A"
    ensures Identify(c, mpnField) == Success(Strip(c.fields.value[i].text))
  {
    IdentifyByField(c, mpnField, i);
  }

  /** Fallback identifiers share one name space with part numbers: a component without a part
      number and one whose part number reads like its fallback land under the same identifier. */
  lemma FallbackMeetsPartNumber()
    ensures Identify(Comp(Some("R1"), None, None, None), "MPN")
         == Identify(Comp(Some("R2"), None, None, Some([Field("MPN", "N/A-R1")])), "MPN")
         == Success("N/A-R1")
  {
    var d := Comp(Some("R2"), None, None, Some([Field("MPN", "N/A-R1")]));
    assert Strip("R1") == "R1";
    assert Fallback("R1") == "N/A-R1";
    assert Strip("N/A-R1") == "N/A-R1";
    IdentifyByField(d, "MPN", 0);
  }
}

=== FILE: properties.dfy ===
/** What the single pass of `main` guarantees about the bill of materials, stated over the
    components as parsed. */
module BomProperties {
  import opened Wrappers
  import opened Strings
  import opened Components
  import opened Identifiers
  import opened Aggregation
  import opened Grouping

  /** Every record `Build` makes starts its quantity at the counter 1, unless a field replaced it. */
  lemma KeyAllFresh(cs: seq<Comp>, mpnField: string)
    ensures Fresh(KeyAll(cs, mpnField))
  {
    var ks := KeyAll(cs, mpnField);
    forall i | 0 <= i < |ks| ensures FreshRecord(ks[i].record) {
      BuildDefaults(cs[i]);
    }
  }

  /** The pass raises nothing exactly on the mergeable inputs, and then the bill it builds is
      the components grouped by identifier with every group merged. */
  lemma AggregateIsGroupThenMerge(cs: seq<Comp>, mpnField: string)
    ensures Aggregate(cs, mpnField).Success? <==> Mergeable(KeyAll(cs, mpnField))
    ensures Aggregate(cs, mpnField).Success? ==>
      Aggregate(cs, mpnField).value == Expected(KeyAll(cs, mpnField))
  {
    AggregateIsFold(cs, mpnField);
    KeyAllFresh(cs, mpnField);
    FoldIsGroupThenMerge(KeyAll(cs, mpnField));
  }

  /** Every component's identifier is a key of the bill. */
  lemma KeyCoverage(cs: seq<Comp>, mpnField: string, bom: Bom)
    requires Aggregate(cs, mpnField) == Success(bom)
    ensures forall i :: 0 <= i < |cs| ==>
      Identify(cs[i], mpnField).Success? && Identify(cs[i], mpnField).value in bom
  {
    var ks := KeyAll(cs, mpnField);
    assert Mergeable(ks) && bom == Expected(ks) by { AggregateIsGroupThenMerge(cs, mpnField); }
    KeySetCovers(ks, bom);
  }

  /** Every key of the bill is the identifier of some component. */
  lemma KeysIdentify(cs: seq<Comp>, mpnField: string, bom: Bom)
    requires Aggregate(cs, mpnField) == Success(bom)
    ensures forall k :: k in bom ==> exists i :: 0 <= i < |cs| && Identify(cs[i], mpnField) == Success(k)
  {
    var ks := KeyAll(cs, mpnField);
    assert Mergeable(ks) && bom == Expected(ks) by { AggregateIsGroupThenMerge(cs, mpnField); }
    KeySetCovers(ks, bom);
    forall k | k in bom
      ensures exists i :: 0 <= i < |cs| && Identify(cs[i], mpnField) == Success(k)
    {
      var i :| 0 <= i < |ks| && ks[i].id == Success(k);
      KeyAllAt(cs, mpnField, i);
    }
  }

  /** The identifier computed up front for a component is the one the pass computes. */
  lemma KeyAllAt(cs: seq<Comp>, mpnField: string, i: nat)
    requires i < |cs|
    ensures KeyAll(cs, mpnField)[i].id == Identify(cs[i], mpnField)
  {
  }

  /** The entry of an identifier lists the references of all components with that identifier in
      input order, joined by ", "; counts them when there are several; and otherwise holds the first
      such component's record. */
  lemma EntryContents(cs: seq<Comp>, mpnField: string, bom: Bom, k: string)
    requires Aggregate(cs, mpnField) == Success(bom) && k in bom
    ensures var g := Group(KeyAll(cs, mpnField), k);
      && |g| > 0
      && bom[k].ref == Join(Refs(g))
      && bom[k].qtty == (if |g| == 1 then g[0].qtty else Count(|g|))
      && bom[k].others == g[0].others
  {
    AggregateIsGroupThenMerge(cs, mpnField);
    ExpectedAt(KeyAll(cs, mpnField), k);
  }

  /** When no component carries a field named "qtty", the quantity of an entry is the number of
      components with its identifier. */
  lemma EntryCount(cs: seq<Comp>, mpnField: string, bom: Bom, k: string)
    requires Aggregate(cs, mpnField) == Success(bom) && k in bom
    requires forall i :: 0 <= i < |cs| ==> !HasField(cs[i], QttyKey)
    ensures bom[k].qtty == Count(|Group(KeyAll(cs, mpnField), k)|)
  {
    var ks := KeyAll(cs, mpnField);
    EntryContents(cs, mpnField, bom, k);
    GroupFrom(ks, k, 0);
    var j :| 0 <= j < |ks| && ks[j].id == Success(k) && ks[j].record == Group(ks, k)[0];
    BuildDefaults(cs[j]);
  }

  /** First wins: the entry of an identifier keeps the value, footprint and fields of the first
      component carrying it; later components with the same identifier change none of them. */
  lemma FirstWins(cs: seq<Comp>, mpnField: string, bom: Bom, i: nat)
    requires Aggregate(cs, mpnField) == Success(bom)
    requires i < |cs| && Identify(cs[i], mpnField).Success?
    requires forall j :: 0 <= j < i ==> Identify(cs[j], mpnField) != Identify(cs[i], mpnField)
    ensures Identify(cs[i], mpnField).value in bom
    ensures bom[Identify(cs[i], mpnField).value].others == Build(cs[i]).others
  {
    var ks := KeyAll(cs, mpnField);
    var k := Identify(cs[i], mpnField).value;
    KeyCoverage(cs, mpnField, bom);
    assert forall j :: 0 <= j < i ==> ks[j].id != Success(k);
    GroupHead(ks, i, k);
    EntryContents(cs, mpnField, bom, k);
  }
}

=== FILE: quantities.dfy ===
/** The quantity column of the bill of materials: how the per-entry counters add up. */
module Quantities {
  import opened Wrappers
  import opened Components
  import opened Identifiers
  import opened Aggregation

  /** The number an entry's quantity counts; text put there by a field counts nothing. */
  function Quantity(r: Record): (n: nat) {
    if r.qtty.Count? then r.qtty.n else 0
  }

  /** Every entry's quantity is the counter. */
  predicate Counted(bom: Bom) {
    forall k :: k in bom ==> bom[k].qtty.Count?
  }

  /** Some identifier of a non-empty bill. */
  ghost function Pick(bom: Bom): (k: string)
    requires bom != map[]
    ensures k in bom
  {
    var k :| k in bom; k
  }

  /** The sum of the quantities of all entries. */
  ghost function Total(bom: Bom): nat
    decreases |bom|
  {
    if bom == map[] then 0
    else Quantity(bom[Pick(bom)]) + Total(bom - {Pick(bom)})
  }

  /** The total is any one entry's quantity plus the total of the others. */
  lemma {:induction false} TotalRemove(bom: Bom, k: string)
    requires k in bom
    ensures Total(bom) == Quantity(bom[k]) + Total(bom - {k})
    decreases |bom|
  {
    var j := Pick(bom);
    if j != k {
      TotalRemove(bom - {j}, k);
      TotalRemove(bom - {k}, j);
      assert bom - {j} - {k} == bom - {k} - {j};
    }
  }

  /** Inserting a record whose quantity is the counter 1 raises the total by one and keeps every
      quantity a counter. */
  lemma InsertAddsOne(bom: Bom, id: string, component: Record)
    requires Counted(bom) && component.qtty == Count(1)
    ensures Insert(bom, id, component).Success?
    ensures Counted(Insert(bom, id, component).value)
    ensures Total(Insert(bom, id, component).value) == Total(bom) + 1
  {
    var s := Insert(bom, id, component).value;
    TotalRemove(s, id);
    assert s - {id} == bom - {id};
    if id in bom {
      TotalRemove(bom, id);
    } else {
      assert bom - {id} == bom;
    }
  }

  /** A component without a field named "qtty" raises exactly when it cannot be identified; otherwise
      it adds one to the total and keeps every quantity a counter. */
  lemma StepAddsOne(bom: Bom, c: Comp, mpnField: string)
    requires Counted(bom) && !HasField(c, QttyKey)
    ensures Step(bom, c, mpnField).Success? <==> mpnField != QttyKey || c.fields.None?
    ensures Step(bom, c, mpnField).Success? ==>
      Counted(Step(bom, c, mpnField).value) && Total(Step(bom, c, mpnField).value) == Total(bom) + 1
  {
    IdentifyShape(c, mpnField);
    var id := Identify(c, mpnField);
    if id.Success? {
      BuildDefaults(c);
      InsertAddsOne(bom, id.value, Build(c));
    }
  }

  /** Every component can be identified: the identifier field is not "qtty", or no component has a
      `fields` container in which to look it up. */
  predicate Identifiable(cs: seq<Comp>, mpnField: string) {
    mpnField != QttyKey || forall i :: 0 <= i < |cs| ==> cs[i].fields.None?
  }

  /** A sequence of components can be identified exactly when its prefix can and its last one can. */
  lemma IdentifiableSnoc(cs: seq<Comp>, mpnField: string)
    requires |cs| > 0
    ensures Identifiable(cs, mpnField) <==>
      Identifiable(cs[..|cs| - 1], mpnField) && (mpnField != QttyKey || cs[|cs| - 1].fields.None?)
  {
    var init := cs[..|cs| - 1];
    assert forall i :: 0 <= i < |init| ==> init[i] == cs[i];
  }

  /** When no component carries a field named "qtty", the pass raises nothing exactly when every
      component can be identified. */
  lemma {:induction false} CountersNeverRaise(cs: seq<Comp>, mpnField: string)
    requires forall i :: 0 <= i < |cs| ==> !HasField(cs[i], QttyKey)
    ensures Aggregate(cs, mpnField).Success? <==> Identifiable(cs, mpnField)
    ensures Aggregate(cs, mpnField).Success? ==> Counted(Aggregate(cs, mpnField).value)
    decreases |cs|
  {
    if cs != [] {
      var init, c := cs[..|cs| - 1], cs[|cs| - 1];
      assert forall i :: 0 <= i < |init| ==> !HasField(init[i], QttyKey) by {
        assert forall i :: 0 <= i < |init| ==> init[i] == cs[i];
      }
      CountersNeverRaise(init, mpnField);
      IdentifiableSnoc(cs, mpnField);
      var prev := Aggregate(init, mpnField);
      if prev.Success? {
        assert Aggregate(cs, mpnField) == Step(prev.value, c, mpnField);
        StepAddsOne(prev.value, c, mpnField);
      } else {
        assert Aggregate(cs, mpnField) == prev;
      }
    }
  }

  /** Quantity conservation: when no component carries a field named "qtty" and the pass raises
      nothing, the quantities of the entries add up to the number of components. */
  lemma {:induction false} QuantityConserved(cs: seq<Comp>, mpnField: string)
    requires forall i :: 0 <= i < |cs| ==> !HasField(cs[i], QttyKey)
    requires Identifiable(cs, mpnField)
    ensures Aggregate(cs, mpnField).Success?
    ensures Total(Aggregate(cs, mpnField).value) == |cs|
    decreases |cs|
  {
    CountersNeverRaise(cs, mpnField);
    if cs != [] {
      var init, c := cs[..|cs| - 1], cs[|cs| - 1];
      assert forall i :: 0 <= i < |init| ==> init[i] == cs[i];
      QuantityConserved(init, mpnField);
      CountersNeverRaise(init, mpnField);
      var prev := Aggregate(init, mpnField).value;
      assert Aggregate(cs, mpnField) == Step(prev, c, mpnField);
      StepAddsOne(prev, c, mpnField);
    } else {
      assert Total(map[]) == 0;
    }
  }
}

=== FILE: strings.dfy ===
/** Text helpers with the meaning Python gives them: `str.strip()` and `", ".join`. */
module Strings {

  /** The characters Python's `str.isspace()` accepts, which `str.strip()` removes. */
  predicate IsSpace(c: char) {
    || ('\t' <= c <= '\r')
    || ('\U{1C}' <= c <= ' ')
    || c == '\U{85}' || c == '\U{A0}' || c == '\U{1680}'
    || ('\U{2000}' <= c <= '\U{200A}')
    || c == '\U{2028}' || c == '\U{2029}' || c == '\U{202F}' || c == '\U{205F}' || c == '\U{3000}'
  }

  /** Every character of `s` is whitespace. */
  predicate AllSpace(s: string) {
    forall i :: 0 <= i < |s| ==> IsSpace(s[i])
  }

  /** True when `s` neither begins nor ends with whitespace. */
  predicate Trimmed(s: string) {
    s == [] || (!IsSpace(s[0]) && !IsSpace(s[|s| - 1]))
  }

  /** The length of the whitespace run at the start of `s`. */
  function LeadingSpace(s: string): (n: nat)
    ensures n <= |s|
    ensures AllSpace(s[..n])
    ensures n < |s| ==> !IsSpace(s[n])
  {
    if |s| > 0 && IsSpace(s[0]) then
      var n := 1 + LeadingSpace(s[1..]);
      assert s[..n] == [s[0]] + s[1..][..n - 1];
      n
    else 0
  }

  /** Python's `s.strip()`: drops whitespace from both ends. */
  function Strip(s: string): (r: string)
    decreases |s|
  {
    if |s| > 0 && IsSpace(s[0]) then Strip(s[1..])
    else if |s| > 0 && IsSpace(s[|s| - 1]) then Strip(s[..|s| - 1])
    else s
  }

  /** The stripped text neither begins nor ends with whitespace. */
  lemma {:induction false} StripTrims(s: string)
    ensures Trimmed(Strip(s))
    decreases |s|
  {
    if |s| > 0 && IsSpace(s[0]) {
      StripTrims(s[1..]);
    } else if |s| > 0 && IsSpace(s[|s| - 1]) {
      StripTrims(s[..|s| - 1]);
    }
  }

  /** `r` is the slice of `s` starting at `i`, with only whitespace before and after it. */
  predicate SpaceBounded(s: string, i: nat, r: string) {
    && i + |r| <= |s|
    && r == s[i..i + |r|]
    && AllSpace(s[..i]) && AllSpace(s[i + |r|..])
  }

  /** The stripped text is the slice of `s` left between a whitespace prefix and a whitespace
      suffix, and it neither begins nor ends with whitespace; so it is the longest such slice. */
  lemma {:induction false} StripSpec(s: string)
    ensures SpaceBounded(s, LeadingSpace(s), Strip(s)) && Trimmed(Strip(s))
    decreases |s|
  {
    StripTrims(s);
    if |s| > 0 && IsSpace(s[0]) {
      StripSpec(s[1..]);
      BoundedAfterSpace(s, LeadingSpace(s[1..]), Strip(s));
    } else if |s| > 0 && IsSpace(s[|s| - 1]) {
      StripSpec(s[..|s| - 1]);
      assert LeadingSpace(s[..|s| - 1]) == 0;
      BoundedBeforeSpace(s, Strip(s));
    }
  }

  /** A leading whitespace character extends the whitespace prefix by one. */
  lemma BoundedAfterSpace(s: string, j: nat, r: string)
    requires |s| > 0 && IsSpace(s[0]) && SpaceBounded(s[1..], j, r)
    ensures SpaceBounded(s, j + 1, r)
  {
    assert s[..j + 1] == [s[0]] + s[1..][..j];
    assert s[j + 1 + |r|..] == s[1..][j + |r|..];
  }

  /** A trailing whitespace character extends the whitespace suffix by one. */
  lemma BoundedBeforeSpace(s: string, r: string)
    requires |s| > 0 && IsSpace(s[|s| - 1]) && SpaceBounded(s[..|s| - 1], 0, r)
    ensures SpaceBounded(s, 0, r)
  {
    var t := s[..|s| - 1];
    assert s[|r|..] == t[|r|..] + [s[|s| - 1]];
  }

  /** Stripping text that is already trimmed leaves it unchanged. */
  lemma StripTrimmed(s: string)
    requires Trimmed(s)
    ensures Strip(s) == s
  {
  }

  /** Stripping twice is the same as stripping once. */
  lemma StripIdempotent(s: string)
    ensures Strip(Strip(s)) == Strip(s)
  {
    StripSpec(s);
    StripTrimmed(Strip(s));
  }

  /** The separator bom.py puts between reference labels of one entry. */
  const Separator := ", "

  /** The labels of `xs` in order, separated by `", "`; built from the left, as the
      running `ref += ", " + ref` of the aggregation builds it. */
  function Join(xs: seq<string>): (joined: string)
  {
    if |xs| == 0 then ""
    else if |xs| == 1 then xs[0]
    else Join(xs[..|xs| - 1]) + Separator + xs[|xs| - 1]
  }
}

=== FILE: wrappers.dfy ===
/** Option and Result, the two wrappers the model needs. */
module Wrappers {

  /** A value that the parsed document may or may not carry. */
  datatype Option<+T> = None | Some(value: T) {

    /** What the option holds when it holds something, `fallback` otherwise. */
    function GetOr(fallback: T): T {
      if Some? then value else fallback
    }
  }

  /** The outcome of a step that can raise: a value, or the error it raised. */
  datatype Result<+R, +E> = Success(value: R) | Failure(error: E)
}
